=== FILE: README.md ===
# ADS-B WebSocket gateway: message dispatch model

This project models the per-message dispatch pipeline of `adsb_server.py`.
The server receives JSON control messages over a WebSocket. It answers an
`init` handshake, checks `message_type` against the four supported kinds
(`airborne_position`, `ground_velocity`, `callsign`, `modeA`), and extracts
and coerces the fields of the message. It then calls the matching Mode S
encoder operation, renders the frames as upper-case hexadecimal for the
reply, and hands the raw frame bytes ("IQ samples") to a file sink.

The model is pure and functional. The collaborators are function-valued
fields of two records, so every property holds for every parser and every
encoder:

- `Values.Runtime` holds `json.loads`, `float()`, `int()` and `str()`.
- `Values.Encoder` holds the four `ModeS` operations. A call that raises
  returns `Raised`.

Modules:

- `Wrappers`: `Option`.
- `Hex`: byte strings and their hex form (`bytes.hex().upper()`), the
  `{:06X}` format, `int.to_bytes(k, 'big')`, and the decoders that are their
  partners.
- `Values`: the Python values the pipeline handles: JSON values, frames
  (`Bytes | Int | Other`) and their truthiness, plus the collaborator records.
- `Process`: `process_adsb_data`. It covers field extraction, the defaults
  (tc=9, ss=0, nicsb=0, timesync=0, emergency_state=0), the encoder call and
  the truthiness filter. The field rules are also written as independent
  tables (`RequiredKeys`, `FloatKeys`, `Defaults`), and lemmas connect the two.
- `Assembly`: the frame loop of `handle_connection`, both as a recursive
  function and as the loop as written.
- `Handler`: one message in, at most one envelope and at most one sample
  batch out. It also covers a connection as a sequence of independent
  messages.

Behaviour of the handler that the model keeps exactly:

- A missing or ill-typed field gets the reason `Invalid ADS-B data`, which
  does not name the field. The same reason is sent when the encoder raises or
  returns only falsy frames.
- Undecodable JSON gets `Invalid JSON`. Any other fault gets
  `Internal server error`.
- A JSON value that is not an object has no `.get`. The resulting
  `AttributeError` lands in the catch-all and gets `Internal server error`.
- A frame of an unsupported type empties both lists. Nothing is sent: no
  success envelope and no failure envelope. No batch is handed to the sink
  either.
- An integer frame outside [0, 2^24) makes `to_bytes(3, 'big')` raise
  `OverflowError`. The reply is `Internal server error`.
- `process_adsb_data` has its own "unsupported type" branch. It is
  unreachable from the handler, because the whitelist check runs first.
  `ProcessAdsbData` models that branch, and its contract ties every list
  result to a supported kind.

A result that is not a list would be wrapped into a one-element list before
assembly (`Handler.AsList`). `process_adsb_data` never returns such a result,
but the wrapping is kept as written.

`Handler.EnvelopeOfJson` reads a reply dictionary back as an envelope. The
server has no such reader; it is the partner used to show that each envelope
is sent with all of its entries.

`Hex.FromHex` decodes upper-case hexadecimal only. It is the inverse used to
state the round trips. It does not model `bytes.fromhex`, which the server
never calls.

## Model

| member | source | states |
|---|---|---|
| Handler.HandleMessage | adsb_server.py:56-150 | a sample batch is handed off exactly when a success envelope is sent; the batch is non-empty; a success envelope carries at least one hex frame and none is empty |
| Handler.DeliveredFramesAreTruthy | adsb_server.py:89-134 | the frames that reach assembly are truthy, so successful assembly always sends the success envelope and always writes a non-empty batch |
| Handler.InitShortCircuit | adsb_server.py:60-70 | an object whose `type` is `"init"` gets exactly the `init_ack` envelope and no batch, and the outcome is the same for any encoder, whatever `message_type` holds |
| Handler.UnsupportedTypeReply | adsb_server.py:73-80 | a `message_type` outside the four kinds gets the failure `"Unsupported message type: "` followed by `str()` of the value (`None` when absent); no batch is produced and the encoder is not involved |
| Handler.InvalidFieldsReply | adsb_server.py:253-258 | a missing required key or a value that fails `float()`/`int()` gets the failure `Invalid ADS-B data`, which does not name the field, and no batch |
| Handler.AirborneNoFramesReply | adsb_server.py:192-198 | an airborne position whose even and odd frames are both falsy (or whose encoder raises) gets `Invalid ADS-B data` |
| Handler.SuccessReplyMatchesBatch | adsb_server.py:98-134 | a success reply has one hex string per frame returned by `process_adsb_data`; each hex string is the hex of that frame's sample; the batch is the samples joined in the same order; the joined hex strings decode to the batch |
| Handler.UnsupportedFrameSilence | adsb_server.py:116-132 | a frame of an unsupported type reached before any other failure means no envelope is sent and no batch is produced |
| Handler.IntOverflowReply | adsb_server.py:108-115 | an integer frame outside [0, 2^24) reached before any unsupported frame gets `Internal server error` and no batch |
| Handler.DecodeFailureReplies | adsb_server.py:145-150 | undecodable JSON gets `Invalid JSON`; any other exception out of `json.loads` (a binary message that is not UTF-8, say), and a decoded value that is not an object, get `Internal server error` |
| Handler.CallsignExample | adsb_server.py:219-230 | a callsign message whose encoding is the bytes AA BB CC is answered with `["AABBCC"]`, and those three bytes are handed to the sink |
| Handler.EnvelopeJson | adsb_server.py:63-150 | every envelope is a dictionary with a `status` key, which is `"success"` exactly for the handshake and success envelopes |
| Handler.EnvelopeJsonRoundTrip | adsb_server.py:63-150 | every envelope's dictionary reads back as that envelope, so each carries all its entries: the handshake's `type`/`status`/`message`, the success reply's `adsb_hex_frames` list in order, the failure's `reason` |
| Handler.EnvelopeOfJsonExact | adsb_server.py:63-150 | a dictionary that reads as an envelope is exactly the one the server builds for it, with no other keys |
| Handler.SuccessReplyIff | adsb_server.py:89-136 | a success envelope is sent if and only if the message decodes to a non-handshake object, `process_adsb_data` returns a non-empty list and every frame is bytes or an int in [0, 2^24); it then lists the assembled hex strings and the joined samples are handed off |
| Handler.EmptyResultReply | adsb_server.py:138-143 | the reason `Invalid ADS-B data` is sent if and only if the message is a non-handshake object of a supported kind for which `process_adsb_data` returns nothing or an empty list; no batch goes with it |
| Handler.RepliesAppend | adsb_server.py:54-56 | no state is carried between messages: the replies and batches for `a + b` are those for `a` followed by those for `b` |
| Handler.HandleConnection | adsb_server.py:54-150 | the receive loop sends the replies and hands off the batches of its messages in order, with at most one envelope per message and a batch only alongside a success envelope |
| Handler.Deliver | adsb_server.py:54-56 | the loop over the outcomes of successive messages sends their envelopes and hands off their batches in order, never more batches than envelopes nor more envelopes than messages |
| Process.ProcessAdsbData | adsb_server.py:156-258 | the function never raises and never returns a bare frame; a list is returned only for a supported kind; every listed frame is truthy; there are at most two frames for an airborne position and at most one for the other kinds |
| Process.SupportedKind | adsb_server.py:73 | yields the message type exactly when it is one of the four supported strings |
| Process.ExtractEventSucceedsIffValid | adsb_server.py:170-235 | field extraction succeeds if and only if every required key is present and every coerced value coerces |
| Process.InvalidFieldsGiveNone | adsb_server.py:253-258 | a `KeyError` on a required key, or a failed coercion, makes `process_adsb_data` return `None` |
| Process.AirbornePositionFrames | adsb_server.py:170-198 | with valid fields the encoder receives the coerced lat/lon/altitude and each optional value or its default; the result is `None` if the encoder raises, and otherwise even then odd, each kept only when truthy (all four cases) |
| Process.AirbornePositionDefaults | adsb_server.py:175-178 | absent optional keys give tc=9, ss=0, nicsb=0, timesync=0 |
| Process.GroundVelocityFrame | adsb_server.py:200-217 | with valid fields the encoder gets the three coerced values; the result is `[frame]` for a truthy frame, otherwise `None` |
| Process.CallsignFrame | adsb_server.py:219-230 | the raw `callsign` value goes to the encoder; the result is `[frame]` for a truthy frame, otherwise `None` |
| Process.ModeAFrame | adsb_server.py:232-247 | the raw `modeA_code` value and `int(emergency_state)` (default 0) go to the encoder; the result is `[frame]` for a truthy frame, otherwise `None` |
| Assembly.RenderFrame | adsb_server.py:98-120 | a frame renders if and only if it is bytes or an int in [0, 2^24); it is unsupported if and only if it is neither; the hex is the hex of the sample; a bytes sample is the frame itself; an int sample is 3 bytes whose big-endian value is the int, with exactly 6 hex digits |
| Assembly.Assemble | adsb_server.py:94-121 | on success there is one hex string and one sample per frame, in frame order, and each hex string is the hex of its sample |
| Assembly.AssembleSucceedsIff | adsb_server.py:98-120 | assembly succeeds if and only if every frame is supported |
| Assembly.AssembleUnsupportedIff | adsb_server.py:116-120 | assembly reports an unsupported frame if and only if an `Other` frame comes before any failing frame |
| Assembly.BatchMatchesHexFrames | adsb_server.py:132-134 | the joined sample batch is byte for byte what the joined hex strings spell, in both directions |
| Assembly.AssembleFrames | adsb_server.py:94-120 | the loop as written produces the recursive definition's lists on success, empties both lists on an unsupported frame, and raises exactly on an integer overflow |
| Hex.ToHex | adsb_server.py:101 | the hex of a byte string has two characters per byte, each an upper-case hex digit |
| Hex.FromHexToHex | adsb_server.py:101 | decoding the hex of any byte string gives the byte string back |
| Hex.ToHexFromHex | adsb_server.py:101 | re-encoding any decodable hex string gives the original string (hex to bytes to hex is the identity) |
| Hex.ToBytesValue | adsb_server.py:114 | `to_bytes(k, 'big')`, when it does not raise, gives k bytes whose big-endian value is the integer |
| Hex.Format06XOfInt24 | adsb_server.py:110-114 | an int in [0, 2^24) formats as exactly six upper-case zero-padded digits, and these are the hex of its three big-endian bytes |
| Hex.Format06XExample | adsb_server.py:110 | `0x2A` formats as `"00002A"` |
| Values.Display | adsb_server.py:77 | a string `message_type` is shown as it is; an absent or null one is shown as `None`; a bool as `True`/`False`; an int as its decimal digits, after `-` when negative; a float, list or object by `str()` |
| Values.DecimalDigits | adsb_server.py:77 | `str()` of a non-negative integer is a non-empty string of decimal digits with no leading zero whose value is that integer, so it is the one canonical decimal form |
| Values.DisplayNegativeIntExample | adsb_server.py:77 | an integer `message_type` of -12 is shown as `-12` |

## Left out

- WebSocket transport: connection accept and close, `websocket.send`, the
  `ConnectionClosed` handling and `main`/server start-up. These are I/O. The
  model returns the envelope to send instead of sending it.
- Logging, and the module-level ICAO / downlink-format / capability
  configuration. These have no effect on replies.
- `write_iq_samples`: the file append and its `asyncio.Lock()`. This is file
  I/O. The lock is created fresh on every call, so it excludes nothing. The
  sink is modelled only as the batch handed to it.
- `asyncio.create_task`: persistence runs detached, and write failures never
  reach the client. `Handler.HandleConnection` lists batches in the order they
  are handed off. It says nothing about when, or whether, they reach the file.
- The `ModeS` encoding mathematics and the encoder's shared mutable state.
  The encoder is a set of pure function parameters.
- `json.dumps`: the model stops at the reply dictionary (`Handler.EnvelopeJson`).
  Key order in the serialised text and the `ensure_ascii` escaping of
  non-ASCII characters (in a reason that echoes `message_type`, say) are not
  modelled.
- `json.loads` and the `float()`/`int()` coercions. These are parameters
  returning `Option`. Floats are carried as opaque 64-bit patterns.
- `str()` of a float, list or object `message_type`. This is a parameter
  (`Runtime.strOf`). Strings, `None`, booleans and integers are rendered
  explicitly.
- The `{:06X}` rendering of a negative integer. `to_bytes` raises for such an
  integer straight after the formatting, so the rendered text is never used.

=== FILE: assembly.dfy ===
/** Frame assembly (the body of the handler between `if adsb_frames:` and the
    sample hand-off): each frame is rendered as upper-case hexadecimal for the
    reply and as raw bytes for the sample sink. */
module Assembly {
  import opened Wrappers
  import opened Hex
  import opened Values

  /** The frames the assembler can render: any byte string, and an integer
      that `to_bytes(3, 'big')` accepts. */
  predicate Supported(f: Frame)
  {
    f.Bytes? || (f.Int? && 0 <= f.n < Int24Bound)
  }

  /** The sample of a frame is the frame itself for bytes, and the three
      big-endian bytes whose value is the integer for an integer frame. */
  predicate IsSampleOf(f: Frame, sample: seq<byte>)
  {
    && (f.Bytes? ==> sample == f.data)
    && (f.Int? ==> |sample| == 3 && Value(sample) == f.n)
  }

  /** What one iteration of the frame loop produces: the hex string and the
      sample, or the `else` branch (unsupported type), or the `OverflowError`
      that `to_bytes` raises. */
  datatype Rendering = Rendered(hex: string, sample: seq<byte>) | Unsupported | Overflow

  function RenderFrame(f: Frame): (r: Rendering)
    ensures r.Rendered? <==> Supported(f)
    ensures r.Unsupported? <==> f.Other?
    ensures r.Rendered? ==> r.hex == ToHex(r.sample) && IsSampleOf(f, r.sample)
    ensures r.Rendered? && f.Int? ==> |r.hex| == 6
  {
    match f
    case Bytes(data) => Rendered(ToHex(data), data)
    case Int(n) =>
      if n < 0 then Overflow
      else
        (match ToBytes(n, 3)
         case None => Overflow
         case Some(sample) =>
           assert Pow(256, 3) == Int24Bound;
           Format06XOfInt24(n);
           ToBytesValue(n, 3);
           Rendered(Format06X(n), sample))
    case Other(_) => Unsupported
  }

  /** The outcome of the whole loop. */
  datatype Assembled =
    | Assembled(hexFrames: seq<string>, samples: seq<seq<byte>>)
    | UnsupportedFrame
    | IntOverflow

  /** The loop over the frames, in order: the first frame that is not
      rendered decides the outcome. */
  function Assemble(frames: seq<Frame>): (r: Assembled)
    ensures r.Assembled? ==> |r.hexFrames| == |frames| && |r.samples| == |frames|
    ensures r.Assembled? ==> forall i :: 0 <= i < |frames| ==>
              r.hexFrames[i] == ToHex(r.samples[i]) && IsSampleOf(frames[i], r.samples[i])
  {
    if |frames| == 0 then Assembled([], [])
    else
      match RenderFrame(frames[0])
      case Unsupported => UnsupportedFrame
      case Overflow => IntOverflow
      case Rendered(hex, sample) =>
        match Assemble(frames[1..])
        case Assembled(hexes, samples) => Assembled([hex] + hexes, [sample] + samples)
        case other => other
  }

  /** Assembly succeeds exactly when every frame is supported. */
  lemma {:induction false} AssembleSucceedsIff(frames: seq<Frame>)
    ensures Assemble(frames).Assembled? <==> forall i :: 0 <= i < |frames| ==> Supported(frames[i])
  {
    if |frames| > 0 {
      AssembleSucceedsIff(frames[1..]);
      assert forall i :: 1 <= i < |frames| ==> frames[i] == frames[1..][i - 1];
    }
  }

  /** Assembly reports an unsupported frame exactly when a frame of another
      type comes before any integer that does not fit in three bytes. */
  lemma {:induction false} AssembleUnsupportedIff(frames: seq<Frame>)
    ensures Assemble(frames).UnsupportedFrame? <==>
            exists k :: 0 <= k < |frames| && frames[k].Other? && AllSupported(frames[..k])
  {
    if |frames| > 0 {
      AssembleUnsupportedIff(frames[1..]);
      if frames[0].Other? {
        assert AllSupported(frames[..0]);
      } else if Supported(frames[0]) {
        if Assemble(frames[1..]).UnsupportedFrame? {
          var k :| 0 <= k < |frames[1..]| && frames[1..][k].Other? && AllSupported(frames[1..][..k]);
          assert frames[..k + 1] == [frames[0]] + frames[1..][..k];
          assert AllSupported(frames[..k + 1]);
        }
        if exists k :: 0 <= k < |frames| && frames[k].Other? && AllSupported(frames[..k]) {
          var k :| 0 <= k < |frames| && frames[k].Other? && AllSupported(frames[..k]);
          assert k > 0;
          assert frames[1..][..k - 1] == frames[..k][1..];
          assert frames[1..][k - 1].Other?;
        }
      } else {
        forall k | 0 <= k < |frames| && frames[k].Other?
          ensures !AllSupported(frames[..k])
        {
          assert frames[..k][0] == frames[0];
        }
      }
    }
  }

  predicate AllSupported(frames: seq<Frame>)
  {
    forall i :: 0 <= i < |frames| ==> Supported(frames[i])
  }

  /** `b''.join(parts)`. */
  function Join(parts: seq<seq<byte>>): (bs: seq<byte>)
  {
    if |parts| == 0 then [] else parts[0] + Join(parts[1..])
  }

  /** `''.join(parts)`. */
  function JoinText(parts: seq<string>): string
  {
    if |parts| == 0 then [] else parts[0] + JoinText(parts[1..])
  }

  /** The batch handed to the sink is, byte for byte, what the reply's hex
      frames spell when read one after another. */
  lemma {:induction false} BatchMatchesHexFrames(frames: seq<Frame>)
    requires Assemble(frames).Assembled?
    ensures ToHex(Join(Assemble(frames).samples)) == JoinText(Assemble(frames).hexFrames)
    ensures FromHex(JoinText(Assemble(frames).hexFrames)) == Some(Join(Assemble(frames).samples))
  {
    var r := Assemble(frames);
    JoinHex(r.hexFrames, r.samples);
    FromHexToHex(Join(r.samples));
  }

  lemma {:induction false} JoinHex(hexes: seq<string>, samples: seq<seq<byte>>)
    requires |hexes| == |samples|
    requires forall i :: 0 <= i < |hexes| ==> hexes[i] == ToHex(samples[i])
    ensures ToHex(Join(samples)) == JoinText(hexes)
  {
    if |hexes| > 0 {
      JoinHex(hexes[1..], samples[1..]);
      ToHexAppend(samples[0], Join(samples[1..]));
    }
  }

  /** The loop of the handler as written: both lists grow together, an
      unsupported frame clears them and stops, and an integer that does not
      fit in three bytes raises out of the loop. */
  method AssembleFrames(frames: seq<Frame>) returns (hexFrames: seq<string>, samples: seq<seq<byte>>, raised: bool)
    ensures raised <==> Assemble(frames).IntOverflow?
    ensures Assemble(frames).Assembled? ==>
              hexFrames == Assemble(frames).hexFrames && samples == Assemble(frames).samples
    ensures Assemble(frames).UnsupportedFrame? ==> hexFrames == [] && samples == []
  {
    hexFrames, samples, raised := [], [], false;
    var i := 0;
    while i < |frames|
      invariant 0 <= i <= |frames|
      invariant |hexFrames| == |samples| == i
      invariant Assemble(frames) == Prefixed(hexFrames, samples, Assemble(frames[i..]))
    {
      var rendering := RenderFrame(frames[i]);
      AssembleFrom(frames, i);
      if rendering.Unsupported? {
        hexFrames, samples := [], [];
        return;
      } else if rendering.Overflow? {
        raised := true;
        return;
      }
      PrefixedAppend(hexFrames, samples, rendering.hex, rendering.sample, Assemble(frames[i + 1..]));
      hexFrames := hexFrames + [rendering.hex];
      samples := samples + [rendering.sample];
      i := i + 1;
    }
    assert frames[i..] == [];
    assert hexFrames + [] == hexFrames && samples + [] == samples;
  }

  /** The outcome of a loop whose first iterations produced `hexes` and `samples`. */
  function Prefixed(hexes: seq<string>, samples: seq<seq<byte>>, rest: Assembled): Assembled
  {
    match rest
    case Assembled(h, s) => Assembled(hexes + h, samples + s)
    case other => other
  }

  /** One unfolding of `Assemble` at position `i`. */
  lemma AssembleFrom(frames: seq<Frame>, i: nat)
    requires i < |frames|
    ensures Assemble(frames[i..]) ==
              match RenderFrame(frames[i])
              case Unsupported => UnsupportedFrame
              case Overflow => IntOverflow
              case Rendered(hex, sample) => Prefixed([hex], [sample], Assemble(frames[i + 1..]))
  {
    assert frames[i..][0] == frames[i];
    assert frames[i..][1..] == frames[i + 1..];
  }

  lemma PrefixedAppend(hexes: seq<string>, samples: seq<seq<byte>>, hex: string, sample: seq<byte>, rest: Assembled)
    ensures Prefixed(hexes, samples, Prefixed([hex], [sample], rest)) == Prefixed(hexes + [hex], samples + [sample], rest)
  {
    if rest.Assembled? {
      assert hexes + ([hex] + rest.hexFrames) == (hexes + [hex]) + rest.hexFrames;
      assert samples + ([sample] + rest.samples) == (samples + [sample]) + rest.samples;
    }
  }
}

=== FILE: handler.dfy ===
/** The per-message body of `handle_connection`: decode, the `init` handshake,
    the message-type whitelist, the call of `process_adsb_data`, frame
    assembly, and the mapping of every outcome to at most one reply envelope
    and at most one sample batch for the sink. */
module Handler {
  import opened Wrappers
  import opened Hex
  import opened Values
  import opened Process
  import opened Assembly

  /** The three reply shapes the server sends. */
  datatype Envelope =
    | InitAck
    | Success(hexFrames: seq<string>)
    | Failure(reason: string)

  const InitAckMessage: string := "Server acknowledges connection."
  const ReasonInvalidJson: string := "Invalid JSON"
  const ReasonInternalError: string := "Internal server error"
  const ReasonInvalidData: string := "Invalid ADS-B data"
  const UnsupportedPrefix: string := "Unsupported message type: "

  /** The dictionary `json.dumps` serialises for each envelope. */
  function EnvelopeJson(e: Envelope): (j: Json)
    ensures j.JObject? && "status" in j.fields
    ensures j.fields["status"] == JStr("success") <==> !e.Failure?
  {
    match e
    case InitAck => JObject(InitAckFields())
    case Success(hexes) =>
      JObject(map["status" := JStr("success"), "adsb_hex_frames" := JArray(JStrings(hexes))])
    case Failure(reason) =>
      JObject(map["status" := JStr("failure"), "reason" := JStr(reason)])
  }

  function InitAckFields(): map<string, Json>
  {
    map["type" := JStr("init_ack"), "status" := JStr("success"), "message" := JStr(InitAckMessage)]
  }

  /** A list of Python strings as JSON values. */
  function JStrings(ss: seq<string>): (items: seq<Json>)
    ensures |items| == |ss|
  {
    if |ss| == 0 then [] else [JStr(ss[0])] + JStrings(ss[1..])
  }

  /** Reads a JSON array back as a list of strings; `None` if an item is not a string. */
  function StringsOf(items: seq<Json>): Option<seq<string>>
  {
    if |items| == 0 then Some([])
    else if !items[0].JStr? then None
    else
      var rest :- StringsOf(items[1..]);
      Some([items[0].s] + rest)
  }

  /** The client's reading of a reply: the envelope a dictionary is, or `None`
      for a dictionary of any other shape. */
  function EnvelopeOfJson(j: Json): Option<Envelope>
  {
    if !j.JObject? then None
    else
      var f := j.fields;
      if f == map["type" := JStr("init_ack"), "status" := JStr("success"),
                  "message" := JStr("Server acknowledges connection.")] then Some(InitAck)
      else if f.Keys == {"status", "reason"} && f["status"] == JStr("failure") && f["reason"].JStr? then
        Some(Failure(f["reason"].s))
      else if f.Keys == {"status", "adsb_hex_frames"} && f["status"] == JStr("success")
              && f["adsb_hex_frames"].JArray? then
        var hexes :- StringsOf(f["adsb_hex_frames"].items);
        Some(Success(hexes))
      else None
  }

  lemma {:induction false} StringsOfJStrings(ss: seq<string>)
    ensures StringsOf(JStrings(ss)) == Some(ss)
  {
    if |ss| > 0 {
      assert JStrings(ss)[1..] == JStrings(ss[1..]);
      StringsOfJStrings(ss[1..]);
      assert [ss[0]] + ss[1..] == ss;
    }
  }

  lemma {:induction false} JStringsOfStrings(items: seq<Json>)
    requires StringsOf(items).Some?
    ensures JStrings(StringsOf(items).value) == items
  {
    if |items| > 0 {
      var ss := StringsOf(items).value;
      JStringsOfStrings(items[1..]);
      assert ss[1..] == StringsOf(items[1..]).value;
      assert [items[0]] + items[1..] == items;
    }
  }

  /** Every envelope reads back as itself, so distinct envelopes are sent as
      distinct dictionaries, each with all of its entries. */
  lemma EnvelopeJsonRoundTrip(e: Envelope)
    ensures EnvelopeOfJson(EnvelopeJson(e)) == Some(e)
  {
    match e
    case InitAck =>
    case Success(hexes) =>
      var f := EnvelopeJson(e).fields;
      assert "type" !in f;
      assert "reason" !in f;
      StringsOfJStrings(hexes);
    case Failure(reason) =>
      var f := EnvelopeJson(e).fields;
      assert "type" !in f;
  }

  /** The only dictionaries that read as an envelope are the ones the server
      builds for it. */
  lemma EnvelopeOfJsonExact(j: Json)
    requires EnvelopeOfJson(j).Some?
    ensures EnvelopeJson(EnvelopeOfJson(j).value) == j
  {
    var f := j.fields;
    var e := EnvelopeOfJson(j).value;
    if e.Success? {
      JStringsOfStrings(f["adsb_hex_frames"].items);
      assert f == map["status" := JStr("success"), "adsb_hex_frames" := JArray(JStrings(e.hexFrames))];
    } else if e.Failure? {
      assert f == map["status" := JStr("failure"), "reason" := JStr(e.reason)];
    }
  }

  /** What one inbound message causes: the envelope sent back, if any, and
      the batch of sample bytes handed to the sink, if any. */
  datatype StepOutcome = StepOutcome(reply: Option<Envelope>, batch: Option<seq<byte>>)

  function Reply(e: Envelope): StepOutcome
  {
    StepOutcome(Some(e), None)
  }

  /** Python truthiness of the result of `process_adsb_data`. */
  predicate ProcessedTruthy(p: Processed)
  {
    match p
    case PNone => false
    case PList(frames) => |frames| > 0
    case PSingle(f) => Truthy(f)
  }

  /** A result that is not a list is wrapped into a one-element list. */
  function AsList(p: Processed): (frames: seq<Frame>)
    ensures p.PList? ==> frames == p.frames
    ensures p.PSingle? ==> frames == [p.frame]
  {
    match p
    case PNone => []
    case PList(frames) => frames
    case PSingle(f) => [f]
  }

  /** Assembly and hand-off: the success reply is sent when there are hex
      frames, the batch is handed off when there are samples, and an
      `OverflowError` out of the loop becomes the catch-all reply. */
  function DeliverFrames(frames: seq<Frame>): (o: StepOutcome)
  {
    match Assemble(frames)
    case IntOverflow => Reply(Failure(ReasonInternalError))
    case UnsupportedFrame => StepOutcome(None, None)
    case Assembled(hexes, samples) =>
      StepOutcome(if |hexes| > 0 then Some(Success(hexes)) else None,
                  if |samples| > 0 then Some(Join(samples)) else None)
  }

  /** The handling of a message that decoded to a JSON object. */
  function HandleObject(fields: map<string, Json>, rt: Runtime, enc: Encoder): StepOutcome
  {
    if Get(fields, "type") == Some(JStr("init")) then Reply(InitAck)
    else if SupportedKind(fields).None? then
      Reply(Failure(UnsupportedPrefix + Display(Get(fields, "message_type"), rt)))
    else
      var processed := ProcessAdsbData(fields, rt, enc);
      if ProcessedTruthy(processed) then DeliverFrames(AsList(processed))
      else Reply(Failure(ReasonInvalidData))
  }

  /** One iteration of the receive loop. A decoded value that is not an
      object has no `.get`, and the `AttributeError` lands in the catch-all. */
  function HandleMessage(message: string, rt: Runtime, enc: Encoder): (o: StepOutcome)
    ensures o.batch.Some? <==> o.reply.Some? && o.reply.value.Success?
    ensures o.batch.Some? ==> |o.batch.value| > 0
    ensures o.reply.Some? && o.reply.value.Success? ==>
              |o.reply.value.hexFrames| > 0 &&
              forall i :: 0 <= i < |o.reply.value.hexFrames| ==> |o.reply.value.hexFrames[i]| > 0
  {
    match rt.parse(message)
    case DecodeError => Reply(Failure(ReasonInvalidJson))
    case OtherError => Reply(Failure(ReasonInternalError))
    case Decoded(data) =>
      if data.JObject? then
        var o := HandleObject(data.fields, rt, enc);
        DeliveredFramesAreTruthy(data.fields, rt, enc);
        o
      else Reply(Failure(ReasonInternalError))
  }

  /** The frames that reach assembly are truthy, so a successful assembly
      yields non-empty hex strings and a non-empty batch. */
  lemma DeliveredFramesAreTruthy(fields: map<string, Json>, rt: Runtime, enc: Encoder)
    ensures var o := HandleObject(fields, rt, enc);
            && (o.batch.Some? <==> o.reply.Some? && o.reply.value.Success?)
            && (o.batch.Some? ==> |o.batch.value| > 0)
            && (o.reply.Some? && o.reply.value.Success? ==>
                  |o.reply.value.hexFrames| > 0 &&
                  forall i :: 0 <= i < |o.reply.value.hexFrames| ==> |o.reply.value.hexFrames[i]| > 0)
  {
    var processed := ProcessAdsbData(fields, rt, enc);
    if Get(fields, "type") != Some(JStr("init")) && SupportedKind(fields).Some? && ProcessedTruthy(processed) {
      var frames := AsList(processed);
      var r := Assemble(frames);
      if r.Assembled? {
        AssembleSucceedsIff(frames);
        forall i | 0 <= i < |frames|
          ensures |r.hexFrames[i]| > 0 && |r.samples[i]| > 0
        {
          assert Truthy(frames[i]) && IsSampleOf(frames[i], r.samples[i]);
        }
        assert |Join(r.samples)| > 0 by {
          assert Join(r.samples) == r.samples[0] + Join(r.samples[1..]);
        }
      }
    }
  }

  // ---------------------------------------------------------------------
  // Properties of one message

  /** An object whose `type` is `"init"` gets the fixed acknowledgement,
      whatever else it holds and whatever the encoder would do. */
  lemma InitShortCircuit(message: string, rt: Runtime, enc: Encoder, other: Encoder)
    requires rt.parse(message).Decoded? && rt.parse(message).data.JObject?
    requires Get(rt.parse(message).data.fields, "type") == Some(JStr("init"))
    ensures HandleMessage(message, rt, enc) == StepOutcome(Some(InitAck), None)
    ensures HandleMessage(message, rt, enc) == HandleMessage(message, rt, other)
  {
  }

  /** A `message_type` outside the four supported kinds is refused by name,
      and the encoder plays no part. */
  lemma UnsupportedTypeReply(message: string, rt: Runtime, enc: Encoder, other: Encoder)
    requires rt.parse(message).Decoded? && rt.parse(message).data.JObject?
    requires Get(rt.parse(message).data.fields, "type") != Some(JStr("init"))
    requires forall k :: k in SupportedKinds ==> Get(rt.parse(message).data.fields, "message_type") != Some(JStr(k))
    ensures var mt := Get(rt.parse(message).data.fields, "message_type");
            HandleMessage(message, rt, enc) ==
              StepOutcome(Some(Failure("Unsupported message type: " + Display(mt, rt))), None)
    ensures HandleMessage(message, rt, enc) == HandleMessage(message, rt, other)
  {
  }

  /** A missing required field, or one whose coercion fails, gets the generic
      invalid-data reply, which does not name the field. */
  lemma InvalidFieldsReply(message: string, rt: Runtime, enc: Encoder)
    requires rt.parse(message).Decoded? && rt.parse(message).data.JObject?
    requires Get(rt.parse(message).data.fields, "type") != Some(JStr("init"))
    requires SupportedKind(rt.parse(message).data.fields).Some?
    requires !FieldsValid(SupportedKind(rt.parse(message).data.fields).value, rt.parse(message).data.fields, rt)
    ensures HandleMessage(message, rt, enc) == StepOutcome(Some(Failure("Invalid ADS-B data")), None)
  {
    InvalidFieldsGiveNone(rt.parse(message).data.fields, rt, enc);
  }

  /** An airborne position whose even and odd frames are both falsy gets the
      invalid-data reply. */
  lemma AirborneNoFramesReply(message: string, rt: Runtime, enc: Encoder)
    requires rt.parse(message).Decoded? && rt.parse(message).data.JObject?
    requires Get(rt.parse(message).data.fields, "type") != Some(JStr("init"))
    requires SupportedKind(rt.parse(message).data.fields) == Some(AirbornePositionKind)
    requires var event := ExtractEvent(AirbornePositionKind, rt.parse(message).data.fields, rt);
             event.Some? && enc.airbornePosition(event.value.args).Returned? ==>
               var (even, odd) := enc.airbornePosition(event.value.args).value;
               !Truthy(even) && !Truthy(odd)
    ensures HandleMessage(message, rt, enc) == StepOutcome(Some(Failure("Invalid ADS-B data")), None)
  {
    var fields := rt.parse(message).data.fields;
    if FieldsValid(AirbornePositionKind, fields, rt) {
      AirbornePositionFrames(fields, rt, enc);
      ExtractEventSucceedsIffValid(AirbornePositionKind, fields, rt);
    } else {
      InvalidFieldsGiveNone(fields, rt, enc);
    }
  }

  /** A successful reply carries one hex string per frame `process_adsb_data`
      returned, in order; the batch is the frames' samples joined in the same
      order, and it is exactly what the joined hex strings spell. */
  lemma SuccessReplyMatchesBatch(message: string, rt: Runtime, enc: Encoder)
    requires rt.parse(message).Decoded? && rt.parse(message).data.JObject?
    requires HandleMessage(message, rt, enc).reply.Some?
    requires HandleMessage(message, rt, enc).reply.value.Success?
    ensures var fields := rt.parse(message).data.fields;
            var o := HandleMessage(message, rt, enc);
            var hexes := o.reply.value.hexFrames;
            var frames := ProcessAdsbData(fields, rt, enc).frames;
            && ProcessAdsbData(fields, rt, enc).PList?
            && |hexes| == |frames|
            && o.batch.Some?
            && ToHex(o.batch.value) == JoinText(hexes)
            && FromHex(JoinText(hexes)) == Some(o.batch.value)
            && exists samples: seq<seq<byte>> ::
                 && |samples| == |frames|
                 && o.batch.value == Join(samples)
                 && forall i :: 0 <= i < |frames| ==> IsSampleOf(frames[i], samples[i]) && hexes[i] == ToHex(samples[i])
  {
    var fields := rt.parse(message).data.fields;
    var frames := AsList(ProcessAdsbData(fields, rt, enc));
    BatchMatchesHexFrames(frames);
    var samples := Assemble(frames).samples;
    assert |samples| == |frames|;
  }

  /** The conditions of a success reply: the message decodes to an object that
      is not a handshake, `process_adsb_data` returns a non-empty list, and
      every frame in it is bytes or an integer. */
  predicate RendersSuccessfully(message: string, rt: Runtime, enc: Encoder)
  {
    && rt.parse(message).Decoded? && rt.parse(message).data.JObject?
    && Get(rt.parse(message).data.fields, "type") != Some(JStr("init"))
    && var p := ProcessAdsbData(rt.parse(message).data.fields, rt, enc);
       p.PList? && |p.frames| > 0 && AllSupported(p.frames)
  }

  /** A success envelope is sent exactly under those conditions, and it then
      carries the assembled hex strings while the joined samples go to the sink. */
  lemma SuccessReplyIff(message: string, rt: Runtime, enc: Encoder)
    ensures var o := HandleMessage(message, rt, enc);
            o.reply.Some? && o.reply.value.Success? <==> RendersSuccessfully(message, rt, enc)
    ensures RendersSuccessfully(message, rt, enc) ==>
              var frames := ProcessAdsbData(rt.parse(message).data.fields, rt, enc).frames;
              HandleMessage(message, rt, enc) ==
                StepOutcome(Some(Success(Assemble(frames).hexFrames)), Some(Join(Assemble(frames).samples)))
  {
    if rt.parse(message).Decoded? && rt.parse(message).data.JObject? {
      var fields := rt.parse(message).data.fields;
      var p := ProcessAdsbData(fields, rt, enc);
      if p.PList? {
        AssembleSucceedsIff(p.frames);
      }
    }
  }

  /** The invalid-data reply is sent exactly for a supported, non-handshake
      object for which `process_adsb_data` returns nothing or an empty list. */
  lemma EmptyResultReply(message: string, rt: Runtime, enc: Encoder)
    ensures HandleMessage(message, rt, enc).reply == Some(Failure("Invalid ADS-B data")) <==>
              && rt.parse(message).Decoded? && rt.parse(message).data.JObject?
              && Get(rt.parse(message).data.fields, "type") != Some(JStr("init"))
              && SupportedKind(rt.parse(message).data.fields).Some?
              && !ProcessedTruthy(ProcessAdsbData(rt.parse(message).data.fields, rt, enc))
    ensures HandleMessage(message, rt, enc).reply == Some(Failure("Invalid ADS-B data")) ==>
              HandleMessage(message, rt, enc).batch.None?
  {
    if rt.parse(message).Decoded? && rt.parse(message).data.JObject? {
      var fields := rt.parse(message).data.fields;
      var mt := Display(Get(fields, "message_type"), rt);
      assert (UnsupportedPrefix + mt)[0] != ReasonInvalidData[0];
      var p := ProcessAdsbData(fields, rt, enc);
      if p.PList? {
        AssembleSucceedsIff(p.frames);
      }
    }
  }

  /** When a frame of an unsupported type comes before any failure, nothing
      at all is sent and nothing is handed to the sink. */
  lemma UnsupportedFrameSilence(message: string, rt: Runtime, enc: Encoder, k: nat)
    requires rt.parse(message).Decoded? && rt.parse(message).data.JObject?
    requires Get(rt.parse(message).data.fields, "type") != Some(JStr("init"))
    requires ProcessAdsbData(rt.parse(message).data.fields, rt, enc).PList?
    requires var frames := ProcessAdsbData(rt.parse(message).data.fields, rt, enc).frames;
             k < |frames| && frames[k].Other? && AllSupported(frames[..k])
    ensures HandleMessage(message, rt, enc) == StepOutcome(None, None)
  {
    AssembleUnsupportedIff(ProcessAdsbData(rt.parse(message).data.fields, rt, enc).frames);
  }

  /** An integer frame that does not fit in three bytes, reached before any
      unsupported frame, gets the catch-all reply. */
  lemma IntOverflowReply(message: string, rt: Runtime, enc: Encoder, k: nat)
    requires rt.parse(message).Decoded? && rt.parse(message).data.JObject?
    requires Get(rt.parse(message).data.fields, "type") != Some(JStr("init"))
    requires ProcessAdsbData(rt.parse(message).data.fields, rt, enc).PList?
    requires var frames := ProcessAdsbData(rt.parse(message).data.fields, rt, enc).frames;
             k < |frames| && frames[k].Int? && !(0 <= frames[k].n < Int24Bound) && AllSupported(frames[..k])
    ensures HandleMessage(message, rt, enc) == StepOutcome(Some(Failure("Internal server error")), None)
  {
    var frames := ProcessAdsbData(rt.parse(message).data.fields, rt, enc).frames;
    AssembleSucceedsIff(frames);
    AssembleUnsupportedIff(frames);
  }

  /** Text that is not JSON gets the invalid-JSON reply; a JSON value that is
      not an object gets the catch-all reply. */
  lemma DecodeFailureReplies(message: string, rt: Runtime, enc: Encoder)
    ensures rt.parse(message).DecodeError? ==>
              HandleMessage(message, rt, enc) == StepOutcome(Some(Failure("Invalid JSON")), None)
    ensures rt.parse(message).OtherError? ==>
              HandleMessage(message, rt, enc) == StepOutcome(Some(Failure("Internal server error")), None)
    ensures rt.parse(message).Decoded? && !rt.parse(message).data.JObject? ==>
              HandleMessage(message, rt, enc) == StepOutcome(Some(Failure("Internal server error")), None)
  {
  }

  /** The example exchange: a callsign message whose encoding is the bytes
      AA BB CC is answered with the single hex frame "AABBCC", and those three
      bytes are handed to the sink. */
  lemma CallsignExample(message: string, rt: Runtime, enc: Encoder)
    requires rt.parse(message) == Decoded(JObject(map["message_type" := JStr("callsign"), "callsign" := JStr("UAL123")]))
    requires enc.callsign(JStr("UAL123")) == Returned(Bytes([0xAA, 0xBB, 0xCC]))
    ensures HandleMessage(message, rt, enc) == StepOutcome(Some(Success(["AABBCC"])), Some([0xAA, 0xBB, 0xCC]))
  {
    var fields := map["message_type" := JStr("callsign"), "callsign" := JStr("UAL123")];
    CallsignExampleProcessed(fields, rt, enc);
    CallsignExampleAssembled();
    assert Join([[0xAA, 0xBB, 0xCC]]) == [0xAA, 0xBB, 0xCC];
  }

  lemma CallsignExampleProcessed(fields: map<string, Json>, rt: Runtime, enc: Encoder)
    requires fields == map["message_type" := JStr("callsign"), "callsign" := JStr("UAL123")]
    requires enc.callsign(JStr("UAL123")) == Returned(Bytes([0xAA, 0xBB, 0xCC]))
    ensures Get(fields, "type") == None
    ensures SupportedKind(fields) == Some(CallsignKind)
    ensures ProcessAdsbData(fields, rt, enc) == PList([Bytes([0xAA, 0xBB, 0xCC])])
  {
    assert Get(fields, "type") == None;
    assert SupportedKind(fields) == Some(CallsignKind);
    assert ExtractEvent(CallsignKind, fields, rt) == Some(CallsignUpdate(JStr("UAL123")));
  }

  lemma CallsignExampleAssembled()
    ensures Assemble([Bytes([0xAA, 0xBB, 0xCC])]) == Assembled(["AABBCC"], [[0xAA, 0xBB, 0xCC]])
  {
    var frame := Bytes([0xAA, 0xBB, 0xCC]);
    assert ByteHex(0xAA) == "AA" && ByteHex(0xBB) == "BB" && ByteHex(0xCC) == "CC";
    assert ToHex([0xAA, 0xBB, 0xCC]) == "AABBCC" by {
      assert [0xAA, 0xBB, 0xCC][1..] == [0xBB, 0xCC];
      assert [0xBB, 0xCC][1..] == [0xCC];
    }
    assert [frame][1..] == [];
  }

  // ---------------------------------------------------------------------
  // A connection: messages are handled one after another, with no state
  // carried from one to the next.

  function SentBy(o: StepOutcome): seq<Envelope>
  {
    if o.reply.Some? then [o.reply.value] else []
  }

  function HandedOffBy(o: StepOutcome): seq<seq<byte>>
  {
    if o.batch.Some? then [o.batch.value] else []
  }

  /** The outcome of each message of a sequence, handled on its own. */
  function Outcomes(messages: seq<string>, rt: Runtime, enc: Encoder): (os: seq<StepOutcome>)
    ensures |os| == |messages|
  {
    seq(|messages|, i requires 0 <= i < |messages| => HandleMessage(messages[i], rt, enc))
  }

  function SentAll(os: seq<StepOutcome>): seq<Envelope>
  {
    if |os| == 0 then [] else SentBy(os[0]) + SentAll(os[1..])
  }

  function HandedOffAll(os: seq<StepOutcome>): seq<seq<byte>>
  {
    if |os| == 0 then [] else HandedOffBy(os[0]) + HandedOffAll(os[1..])
  }

  /** The envelopes sent for a sequence of messages, in order. */
  function Replies(messages: seq<string>, rt: Runtime, enc: Encoder): seq<Envelope>
  {
    SentAll(Outcomes(messages, rt, enc))
  }

  /** The sample batches handed to the sink for a sequence of messages, in order. */
  function Batches(messages: seq<string>, rt: Runtime, enc: Encoder): seq<seq<byte>>
  {
    HandedOffAll(Outcomes(messages, rt, enc))
  }

  lemma {:induction false} SentAllAppend(x: seq<StepOutcome>, y: seq<StepOutcome>)
    ensures SentAll(x + y) == SentAll(x) + SentAll(y)
    ensures HandedOffAll(x + y) == HandedOffAll(x) + HandedOffAll(y)
  {
    if |x| > 0 {
      assert (x + y)[0] == x[0];
      assert (x + y)[1..] == x[1..] + y;
      SentAllAppend(x[1..], y);
    } else {
      assert x + y == y;
    }
  }

  /** The handling of the messages of a connection does not depend on what
      came before them: the replies to `a + b` are those to `a` then those to `b`. */
  lemma RepliesAppend(a: seq<string>, b: seq<string>, rt: Runtime, enc: Encoder)
    ensures Replies(a + b, rt, enc) == Replies(a, rt, enc) + Replies(b, rt, enc)
    ensures Batches(a + b, rt, enc) == Batches(a, rt, enc) + Batches(b, rt, enc)
  {
    var oa, ob := Outcomes(a, rt, enc), Outcomes(b, rt, enc);
    assert Outcomes(a + b, rt, enc) == oa + ob by {
      forall i | 0 <= i < |a + b|
        ensures Outcomes(a + b, rt, enc)[i] == (oa + ob)[i]
      {
        if i < |a| {
          assert (a + b)[i] == a[i];
        } else {
          assert (a + b)[i] == b[i - |a|];
        }
      }
    }
    SentAllAppend(oa, ob);
  }

  /** At most one envelope per message, and a batch only alongside an envelope. */
  predicate BoundedStep(o: StepOutcome)
  {
    |HandedOffBy(o)| <= |SentBy(o)| <= 1
  }

  lemma OutcomesBounded(messages: seq<string>, rt: Runtime, enc: Encoder)
    ensures forall o :: o in Outcomes(messages, rt, enc) ==> BoundedStep(o)
  {
  }

  /** Sends the envelopes and hands off the batches of a run of outcomes, in order. */
  method Deliver(os: seq<StepOutcome>) returns (sent: seq<Envelope>, handedOff: seq<seq<byte>>)
    requires forall o :: o in os ==> BoundedStep(o)
    ensures sent == SentAll(os)
    ensures handedOff == HandedOffAll(os)
    ensures |handedOff| <= |sent| <= |os|
  {
    sent, handedOff := [], [];
    var i := 0;
    while i < |os|
      invariant 0 <= i <= |os|
      invariant sent == SentAll(os[..i])
      invariant handedOff == HandedOffAll(os[..i])
      invariant |handedOff| <= |sent| <= i
    {
      var o := os[i];
      assert BoundedStep(o);
      SentAllAppend(os[..i], [o]);
      assert os[..i + 1] == os[..i] + [o];
      assert SentAll([o]) == SentBy(o) && HandedOffAll([o]) == HandedOffBy(o) by {
        assert [o][1..] == [];
      }
      sent := sent + SentBy(o);
      handedOff := handedOff + HandedOffBy(o);
      i := i + 1;
    }
    assert os[..i] == os;
  }

  /** The receive loop: each message is handled on its own, in order; at most
      one envelope per message, and a batch only alongside a success envelope. */
  method HandleConnection(messages: seq<string>, rt: Runtime, enc: Encoder)
    returns (sent: seq<Envelope>, handedOff: seq<seq<byte>>)
    ensures sent == Replies(messages, rt, enc)
    ensures handedOff == Batches(messages, rt, enc)
    ensures |handedOff| <= |sent| <= |messages|
  {
    var os := Outcomes(messages, rt, enc);
    OutcomesBounded(messages, rt, enc);
    sent, handedOff := Deliver(os);
  }
}

=== FILE: hex.dfy ===
/** Byte strings, their upper-case hexadecimal text form, and the two integer
    conversions the frame assembler relies on: the `{:06X}` format of an
    integer and `int.to_bytes(k, 'big')`. */
module Hex {
  import opened Wrappers

  type byte = x: int | 0 <= x < 256

  /** 2^24: the integer frames of the assembler are 24-bit values. */
  const Int24Bound: nat := 0x100_0000

  function Pow(b: nat, k: nat): nat
  {
    if k == 0 then 1 else b * Pow(b, k - 1)
  }

  predicate IsHexDigit(c: char)
  {
    '0' <= c <= '9' || 'A' <= c <= 'F'
  }

  /** The upper-case hexadecimal digit of value `d`. */
  function Digit(d: int): (c: char)
    requires 0 <= d < 16
    ensures IsHexDigit(c)
    ensures DigitValue(c) == Some(d)
  {
    if d < 10 then ('0' as int + d) as char else ('A' as int + d - 10) as char
  }

  /** The value of an upper-case hexadecimal digit; `None` for any other character. */
  function DigitValue(c: char): (r: Option<int>)
    ensures r.Some? <==> IsHexDigit(c)
    ensures r.Some? ==> 0 <= r.value < 16
  {
    if '0' <= c <= '9' then Some(c as int - '0' as int)
    else if 'A' <= c <= 'F' then Some(c as int - 'A' as int + 10)
    else None
  }

  function ByteHex(b: byte): string
  {
    [Digit(b / 16), Digit(b % 16)]
  }

  /** `bytes.hex().upper()`: two upper-case digits per byte, high nibble first. */
  function ToHex(bs: seq<byte>): (s: string)
    ensures |s| == 2 * |bs|
    ensures forall i :: 0 <= i < |s| ==> IsHexDigit(s[i])
  {
    if |bs| == 0 then [] else ByteHex(bs[0]) + ToHex(bs[1..])
  }

  /** Reads back an upper-case hexadecimal string; `None` on an odd length or a
      character that is not an upper-case hexadecimal digit. */
  function FromHex(s: string): Option<seq<byte>>
  {
    if |s| == 0 then Some([])
    else if |s| == 1 then None
    else
      var hi :- DigitValue(s[0]);
      var lo :- DigitValue(s[1]);
      var rest :- FromHex(s[2..]);
      Some([hi * 16 + lo] + rest)
  }

  /** Decoding the hex form of any byte string gives the byte string back. */
  lemma {:induction false} FromHexToHex(bs: seq<byte>)
    ensures FromHex(ToHex(bs)) == Some(bs)
  {
    if |bs| > 0 {
      var s := ToHex(bs);
      assert s[2..] == ToHex(bs[1..]);
      FromHexToHex(bs[1..]);
      assert bs[0] / 16 * 16 + bs[0] % 16 == bs[0];
      assert [bs[0]] + bs[1..] == bs;
    }
  }

  /** Every string the decoder accepts is the hex form of what it decodes to,
      so hex -> bytes -> hex gives the original string. */
  lemma {:induction false} ToHexFromHex(s: string)
    requires FromHex(s).Some?
    ensures ToHex(FromHex(s).value) == s
  {
    if |s| > 1 {
      var hi := DigitValue(s[0]).value;
      var lo := DigitValue(s[1]).value;
      var b: byte := hi * 16 + lo;
      assert b / 16 == hi && b % 16 == lo;
      ToHexFromHex(s[2..]);
      var bs := FromHex(s).value;
      assert bs == [b] + FromHex(s[2..]).value;
      assert bs[1..] == FromHex(s[2..]).value;
      assert Digit(hi) == s[0] by { DigitRoundTrip(s[0]); }
      assert Digit(lo) == s[1] by { DigitRoundTrip(s[1]); }
      assert ToHex(bs) == ByteHex(b) + s[2..];
      assert s == s[..2] + s[2..];
    }
  }

  lemma DigitRoundTrip(c: char)
    requires IsHexDigit(c)
    ensures Digit(DigitValue(c).value) == c
  {
  }

  /** The hex form of a concatenation is the concatenation of the hex forms. */
  lemma {:induction false} ToHexAppend(a: seq<byte>, b: seq<byte>)
    ensures ToHex(a + b) == ToHex(a) + ToHex(b)
  {
    if |a| > 0 {
      assert (a + b)[1..] == a[1..] + b;
      ToHexAppend(a[1..], b);
    } else {
      assert a + b == b;
    }
  }

  // ---------------------------------------------------------------------
  // Integers

  /** `format(n, 'X')` for a non-negative `n`: the shortest upper-case digits. */
  function HexNat(n: nat): (s: string)
    ensures |s| >= 1
  {
    if n < 16 then [Digit(n)] else HexNat(n / 16) + [Digit(n % 16)]
  }

  function Zeros(k: nat): (s: string)
    ensures |s| == k
  {
    seq(k, _ => '0')
  }

  /** The zero fill of a `0w` format width: pad on the left up to `w` characters. */
  function ZeroPad(s: string, w: nat): string
  {
    if |s| < w then Zeros(w - |s|) + s else s
  }

  /** `f"{n:06X}"` for a non-negative integer `n`. */
  function Format06X(n: nat): string
  {
    ZeroPad(HexNat(n), 6)
  }

  /** The `w` low hexadecimal digits of `n`, most significant first. */
  function FixedHex(n: nat, w: nat): (s: string)
    ensures |s| == w
  {
    if w == 0 then [] else FixedHex(n / 16, w - 1) + [Digit(n % 16)]
  }

  /** The `k` low bytes of `n`, most significant first. */
  function BigEndian(n: nat, k: nat): (bs: seq<byte>)
    ensures |bs| == k
  {
    if k == 0 then [] else BigEndian(n / 256, k - 1) + [n % 256]
  }

  /** `n.to_bytes(k, byteorder='big')`, which raises `OverflowError` (here
      `None`) for a negative `n` or one that does not fit in `k` bytes. */
  function ToBytes(n: int, k: nat): Option<seq<byte>>
  {
    if 0 <= n < Pow(256, k) then Some(BigEndian(n, k)) else None
  }

  /** The unsigned big-endian value of a byte string. */
  function Value(bs: seq<byte>): nat
  {
    if |bs| == 0 then 0 else Value(bs[..|bs| - 1]) * 256 + bs[|bs| - 1]
  }

  /** Whatever `to_bytes` returns reads back, big-endian, as the integer given. */
  lemma {:induction false} ToBytesValue(n: int, k: nat)
    requires ToBytes(n, k).Some?
    ensures |ToBytes(n, k).value| == k
    ensures Value(ToBytes(n, k).value) == n
  {
    BigEndianValue(n, k);
  }

  lemma {:induction false} BigEndianValue(n: nat, k: nat)
    requires n < Pow(256, k)
    ensures Value(BigEndian(n, k)) == n
  {
    if k > 0 {
      var bs := BigEndian(n, k);
      assert bs[..k - 1] == BigEndian(n / 256, k - 1);
      assert n / 256 < Pow(256, k - 1);
      BigEndianValue(n / 256, k - 1);
    }
  }

  /** Division facts for splitting a byte into two nibbles. */
  lemma NibbleSplit(n: nat)
    ensures n / 16 / 16 == n / 256
    ensures n % 256 / 16 == n / 16 % 16
    ensures n % 256 % 16 == n % 16
  {
    var q := n / 256;
    var r := n % 256;
    var a := r / 16;
    var b := r % 16;
    assert n == 16 * (16 * q + a) + b;
    DivMod16(n, 16 * q + a, b);
    DivMod16(16 * q + a, q, a);
  }

  lemma DivMod16(n: int, q: int, r: int)
    requires 0 <= r < 16 && n == 16 * q + r
    ensures n / 16 == q && n % 16 == r
  {
  }

  /** Two hex digits per byte: the `2k` low digits of `n` are the hex form of its `k` low bytes. */
  lemma {:induction false} FixedHexBigEndian(n: nat, k: nat)
    ensures FixedHex(n, 2 * k) == ToHex(BigEndian(n, k))
  {
    if k > 0 {
      NibbleSplit(n);
      FixedHexBigEndian(n / 256, k - 1);
      ToHexAppend(BigEndian(n / 256, k - 1), [n % 256]);
      calc {
        FixedHex(n, 2 * k);
        FixedHex(n / 16, 2 * k - 1) + [Digit(n % 16)];
        FixedHex(n / 16 / 16, 2 * k - 2) + [Digit(n / 16 % 16)] + [Digit(n % 16)];
        { assert 2 * k - 2 == 2 * (k - 1); }
        ToHex(BigEndian(n / 256, k - 1)) + ByteHex(n % 256);
      }
    }
  }

  /** Zero-padding the shortest digits of `n` to a width it fits in gives its fixed-width digits. */
  lemma {:induction false} ZeroPadHexNat(n: nat, w: nat)
    requires 1 <= w && n < Pow(16, w)
    ensures ZeroPad(HexNat(n), w) == FixedHex(n, w)
  {
    if n < 16 {
      FixedHexZero(w - 1);
      assert ZeroPad(HexNat(n), w) == Zeros(w - 1) + [Digit(n)];
    } else {
      assert Pow(16, 1) == 16;
      var x := HexNat(n / 16);
      var c := Digit(n % 16);
      ZeroPadHexNat(n / 16, w - 1);
      if |x| + 1 < w {
        assert ZeroPad(x + [c], w) == Zeros(w - 1 - |x|) + x + [c];
      }
      assert ZeroPad(x + [c], w) == ZeroPad(x, w - 1) + [c];
    }
  }

  lemma {:induction false} FixedHexZero(w: nat)
    ensures FixedHex(0, w) == Zeros(w)
  {
    if w > 0 {
      FixedHexZero(w - 1);
      assert Zeros(w) == Zeros(w - 1) + ['0'];
    }
  }

  /** A 24-bit integer renders under `{:06X}` as exactly six upper-case digits,
      and they are the hex form of its three big-endian bytes. */
  lemma Format06XOfInt24(n: nat)
    requires n < Int24Bound
    ensures |Format06X(n)| == 6
    ensures ToBytes(n, 3).Some?
    ensures Format06X(n) == ToHex(ToBytes(n, 3).value)
  {
    assert Pow(16, 6) == Int24Bound;
    assert Pow(256, 3) == Int24Bound;
    ZeroPadHexNat(n, 6);
    FixedHexBigEndian(n, 3);
  }

  /** `f"{0x2A:06X}"` is `"00002A"`. */
  lemma Format06XExample()
    ensures Format06X(0x2A) == "00002A"
  {
    assert HexNat(0x2A) == "2A";
    assert Zeros(4) == "0000";
  }
}

=== FILE: process.dfy ===
/** `process_adsb_data`: extract the fields of one decoded message, apply the
    defaults of the optional ones, call the matching encoder operation and
    collect its frames. Every `KeyError` and every other exception becomes
    `None`, so this never raises. */
module Process {
  import opened Wrappers
  import opened Values

  const AirbornePositionKind: string := "airborne_position"
  const GroundVelocityKind: string := "ground_velocity"
  const CallsignKind: string := "callsign"
  const ModeAKind: string := "modeA"

  /** The message types the server accepts, in the order the handler lists them. */
  const SupportedKinds: seq<string> :=
    [AirbornePositionKind, GroundVelocityKind, CallsignKind, ModeAKind]

  /** The validated, typed form of a message's payload, one variant per kind. */
  datatype Event =
    | AirbornePosition(args: AirborneArgs)
    | GroundVelocity(speedKt: Float, trackDeg: Float, verticalRate: Float)
    | CallsignUpdate(callsign: Json)
    | ModeACode(code: Json, emergencyState: int)

  /** What `process_adsb_data` returns: `None`, a list of frames, or (as its
      docstring allows, though no branch of it does so) a single frame. */
  datatype Processed = PNone | PList(frames: seq<Frame>) | PSingle(frame: Frame)

  /** `float(data[key])`: `None` on a missing key or a failed coercion. */
  function RequiredFloat(fields: map<string, Json>, key: string, rt: Runtime): Option<Float>
  {
    var v :- Get(fields, key);
    rt.toFloat(v)
  }

  /** `int(data[key]) if key in data else default`, and equally
      `int(data.get(key, default))`. */
  function OptionalInt(fields: map<string, Json>, key: string, default: int, rt: Runtime): Option<int>
  {
    if key in fields then rt.toInt(fields[key]) else Some(default)
  }

  /** The field extraction of each branch, everything before the encoder call. */
  function ExtractEvent(kind: string, fields: map<string, Json>, rt: Runtime): Option<Event>
    requires kind in SupportedKinds
  {
    if kind == AirbornePositionKind then
      var lat :- RequiredFloat(fields, "lat", rt);
      var lon :- RequiredFloat(fields, "lon", rt);
      var alt :- RequiredFloat(fields, "altitude", rt);
      var tc :- OptionalInt(fields, "tc", 9, rt);
      var ss :- OptionalInt(fields, "ss", 0, rt);
      var nicsb :- OptionalInt(fields, "nicsb", 0, rt);
      var timesync :- OptionalInt(fields, "timesync", 0, rt);
      Some(AirbornePosition(AirborneArgs(lat, lon, alt, tc, ss, nicsb, timesync)))
    else if kind == GroundVelocityKind then
      var speed :- RequiredFloat(fields, "ground_velocity_kt", rt);
      var track :- RequiredFloat(fields, "track_angle_deg", rt);
      var vrate :- RequiredFloat(fields, "vertical_rate", rt);
      Some(GroundVelocity(speed, track, vrate))
    else if kind == CallsignKind then
      var callsign :- Get(fields, "callsign");
      Some(CallsignUpdate(callsign))
    else
      var code :- Get(fields, "modeA_code");
      var emergency :- OptionalInt(fields, "emergency_state", 0, rt);
      Some(ModeACode(code, emergency))
  }

  /** `[frame]` when the encoder returned a truthy frame, otherwise `None`. */
  function SingleFrame(c: Call<Frame>): Processed
  {
    match c
    case Raised => PNone
    case Returned(f) => if Truthy(f) then PList([f]) else PNone
  }

  /** The encoder call of each branch and the collection of its frames. */
  function Encode(ev: Event, enc: Encoder): Processed
  {
    match ev
    case AirbornePosition(args) =>
      (match enc.airbornePosition(args)
       case Raised => PNone
       case Returned((even, odd)) =>
         PList((if Truthy(even) then [even] else []) + (if Truthy(odd) then [odd] else [])))
    case GroundVelocity(speed, track, vrate) => SingleFrame(enc.groundVelocity(speed, track, vrate))
    case CallsignUpdate(callsign) => SingleFrame(enc.callsign(callsign))
    case ModeACode(code, emergency) => SingleFrame(enc.modeA(code, emergency))
  }

  /** The `message_type` of a message when it is one of the supported kinds. */
  function SupportedKind(fields: map<string, Json>): (k: Option<string>)
    ensures k.Some? ==> k.value in SupportedKinds && Get(fields, "message_type") == Some(JStr(k.value))
    ensures k.None? ==> forall s :: s in SupportedKinds ==> Get(fields, "message_type") != Some(JStr(s))
  {
    match Get(fields, "message_type")
    case Some(JStr(s)) => if s in SupportedKinds then Some(s) else None
    case _ => None
  }

  function ProcessAdsbData(fields: map<string, Json>, rt: Runtime, enc: Encoder): (r: Processed)
    ensures !r.PSingle?
    ensures r.PList? ==> SupportedKind(fields).Some?
    ensures r.PList? ==> forall i :: 0 <= i < |r.frames| ==> Truthy(r.frames[i])
    ensures r.PList? ==> |r.frames| <= if SupportedKind(fields) == Some(AirbornePositionKind) then 2 else 1
  {
    match SupportedKind(fields)
    case None => PNone
    case Some(kind) =>
      match ExtractEvent(kind, fields, rt)
      case None => PNone
      case Some(ev) => Encode(ev, enc)
  }

  // ---------------------------------------------------------------------
  // The field rules of each kind, stated as tables, and what the extraction
  // does with them.

  /** The keys each kind reads with `data[key]`; a missing one raises `KeyError`. */
  function RequiredKeys(kind: string): set<string>
  {
    if kind == AirbornePositionKind then {"lat", "lon", "altitude"}
    else if kind == GroundVelocityKind then {"ground_velocity_kt", "track_angle_deg", "vertical_rate"}
    else if kind == CallsignKind then {"callsign"}
    else if kind == ModeAKind then {"modeA_code"}
    else {}
  }

  /** The required keys whose value goes through `float()`; the callsign and
      the Mode A code are passed to the encoder as they are. */
  function FloatKeys(kind: string): set<string>
  {
    if kind == AirbornePositionKind || kind == GroundVelocityKind then RequiredKeys(kind) else {}
  }

  /** The optional keys of each kind with the default used when the key is
      absent; a present value goes through `int()`. */
  function Defaults(kind: string): map<string, int>
  {
    if kind == AirbornePositionKind then map["tc" := 9, "ss" := 0, "nicsb" := 0, "timesync" := 0]
    else if kind == ModeAKind then map["emergency_state" := 0]
    else map[]
  }

  /** Every required key is present and every coerced value coerces. */
  predicate FieldsValid(kind: string, fields: map<string, Json>, rt: Runtime)
  {
    && (forall k :: k in RequiredKeys(kind) ==> k in fields)
    && (forall k :: k in FloatKeys(kind) && k in fields ==> rt.toFloat(fields[k]).Some?)
    && (forall k :: k in Defaults(kind) && k in fields ==> rt.toInt(fields[k]).Some?)
  }

  function FloatOf(fields: map<string, Json>, key: string, rt: Runtime): Float
    requires key in fields && rt.toFloat(fields[key]).Some?
  {
    rt.toFloat(fields[key]).value
  }

  /** The integer an optional key contributes: its coerced value, or the default. */
  function IntOrDefault(kind: string, fields: map<string, Json>, key: string, rt: Runtime): int
    requires key in Defaults(kind)
    requires key in fields ==> rt.toInt(fields[key]).Some?
  {
    if key in fields then rt.toInt(fields[key]).value else Defaults(kind)[key]
  }

  /** Extraction succeeds exactly when the fields obey the rules of their kind. */
  lemma ExtractEventSucceedsIffValid(kind: string, fields: map<string, Json>, rt: Runtime)
    requires kind in SupportedKinds
    ensures ExtractEvent(kind, fields, rt).Some? <==> FieldsValid(kind, fields, rt)
  {
    if FieldsValid(kind, fields, rt) {
      forall k | k in RequiredKeys(kind) ensures k in fields && (k in FloatKeys(kind) ==> rt.toFloat(fields[k]).Some?) {
      }
    }
  }

  /** A missing required key, or a value that `float()`/`int()` rejects, makes
      `process_adsb_data` return `None`. */
  lemma InvalidFieldsGiveNone(fields: map<string, Json>, rt: Runtime, enc: Encoder)
    requires SupportedKind(fields).Some?
    requires !FieldsValid(SupportedKind(fields).value, fields, rt)
    ensures ProcessAdsbData(fields, rt, enc) == PNone
  {
    ExtractEventSucceedsIffValid(SupportedKind(fields).value, fields, rt);
  }

  /** An airborne position message with valid fields calls the encoder with
      the coerced values and the defaults, and keeps the even and then the odd
      frame, each only when truthy. */
  lemma AirbornePositionFrames(fields: map<string, Json>, rt: Runtime, enc: Encoder)
    requires SupportedKind(fields) == Some(AirbornePositionKind)
    requires FieldsValid(AirbornePositionKind, fields, rt)
    ensures "lat" in fields && "lon" in fields && "altitude" in fields
    ensures var args := AirborneArgs(
              FloatOf(fields, "lat", rt), FloatOf(fields, "lon", rt), FloatOf(fields, "altitude", rt),
              IntOrDefault(AirbornePositionKind, fields, "tc", rt),
              IntOrDefault(AirbornePositionKind, fields, "ss", rt),
              IntOrDefault(AirbornePositionKind, fields, "nicsb", rt),
              IntOrDefault(AirbornePositionKind, fields, "timesync", rt));
            var r := ProcessAdsbData(fields, rt, enc);
            match enc.airbornePosition(args)
            case Raised => r == PNone
            case Returned((even, odd)) =>
              && (Truthy(even) && Truthy(odd) ==> r == PList([even, odd]))
              && (Truthy(even) && !Truthy(odd) ==> r == PList([even]))
              && (!Truthy(even) && Truthy(odd) ==> r == PList([odd]))
              && (!Truthy(even) && !Truthy(odd) ==> r == PList([]))
  {
    var kind := AirbornePositionKind;
    assert "lat" in RequiredKeys(kind) && "lon" in RequiredKeys(kind) && "altitude" in RequiredKeys(kind);
    assert "lat" in FloatKeys(kind) && "lon" in FloatKeys(kind) && "altitude" in FloatKeys(kind);
    assert "tc" in Defaults(kind) && "ss" in Defaults(kind) && "nicsb" in Defaults(kind) && "timesync" in Defaults(kind);
  }

  /** With none of the optional keys present, the encoder is called with
      tc = 9, ss = 0, nicsb = 0 and timesync = 0. */
  lemma AirbornePositionDefaults(fields: map<string, Json>, rt: Runtime)
    requires FieldsValid(AirbornePositionKind, fields, rt)
    requires "tc" !in fields && "ss" !in fields && "nicsb" !in fields && "timesync" !in fields
    ensures ExtractEvent(AirbornePositionKind, fields, rt).Some?
    ensures var args := ExtractEvent(AirbornePositionKind, fields, rt).value.args;
            args.tc == 9 && args.ss == 0 && args.nicsb == 0 && args.timesync == 0
  {
    ExtractEventSucceedsIffValid(AirbornePositionKind, fields, rt);
  }

  /** The result of a one-frame kind: `[frame]` for a truthy frame, else `None`. */
  predicate OneFrameOrNone(call: Call<Frame>, r: Processed)
  {
    if call.Returned? && Truthy(call.value) then r == PList([call.value]) else r == PNone
  }

  lemma GroundVelocityFrame(fields: map<string, Json>, rt: Runtime, enc: Encoder)
    requires SupportedKind(fields) == Some(GroundVelocityKind)
    requires FieldsValid(GroundVelocityKind, fields, rt)
    ensures "ground_velocity_kt" in fields && "track_angle_deg" in fields && "vertical_rate" in fields
    ensures OneFrameOrNone(
              enc.groundVelocity(FloatOf(fields, "ground_velocity_kt", rt),
                                 FloatOf(fields, "track_angle_deg", rt),
                                 FloatOf(fields, "vertical_rate", rt)),
              ProcessAdsbData(fields, rt, enc))
  {
    var kind := GroundVelocityKind;
    assert "ground_velocity_kt" in FloatKeys(kind) && "track_angle_deg" in FloatKeys(kind) && "vertical_rate" in FloatKeys(kind);
  }

  lemma CallsignFrame(fields: map<string, Json>, rt: Runtime, enc: Encoder)
    requires SupportedKind(fields) == Some(CallsignKind)
    requires FieldsValid(CallsignKind, fields, rt)
    ensures "callsign" in fields
    ensures OneFrameOrNone(enc.callsign(fields["callsign"]), ProcessAdsbData(fields, rt, enc))
  {
    assert "callsign" in RequiredKeys(CallsignKind);
  }

  lemma ModeAFrame(fields: map<string, Json>, rt: Runtime, enc: Encoder)
    requires SupportedKind(fields) == Some(ModeAKind)
    requires FieldsValid(ModeAKind, fields, rt)
    ensures "modeA_code" in fields
    ensures OneFrameOrNone(
              enc.modeA(fields["modeA_code"], IntOrDefault(ModeAKind, fields, "emergency_state", rt)),
              ProcessAdsbData(fields, rt, enc))
  {
    assert "modeA_code" in RequiredKeys(ModeAKind);
    assert "emergency_state" in Defaults(ModeAKind);
  }
}

=== FILE: values.dfy ===
/** The Python values the dispatch pipeline handles, and the collaborators it
    calls but does not define: the JSON parser, the built-in `float()`, `int()`
    and `str()` coercions, and the Mode S encoder. Each collaborator is a
    function-valued field, so every property proved about the pipeline holds
    for every parser and every encoder. */
module Values {
  import opened Wrappers
  import opened Hex

  /** An IEEE-754 double, carried by its bit pattern; the pipeline only passes
      floats on to the encoder. */
  datatype Float = Float(bits: bv64)

  /** A value produced by `json.loads`. */
  datatype Json =
    | JNull
    | JBool(b: bool)
    | JInt(i: int)
    | JFloat(f: Float)
    | JStr(s: string)
    | JArray(items: seq<Json>)
    | JObject(fields: map<string, Json>)

  /** `dict.get(key)`: `None` when the key is absent. */
  function Get(fields: map<string, Json>, key: string): (r: Option<Json>)
    ensures r.Some? <==> key in fields
    ensures r.Some? ==> r.value == fields[key]
  {
    if key in fields then Some(fields[key]) else None
  }

  /** A value the encoder returns as a frame. `bytes` and `bytearray` are both
      `Bytes`; `bool` is a subclass of `int`, so `True`/`False` are `Int(1)`/`Int(0)`;
      everything else (None, str, a list, ...) is `Other`, with its truth value. */
  datatype Frame =
    | Bytes(data: seq<byte>)
    | Int(n: int)
    | Other(truthy: bool)

  /** Python truthiness of a frame: empty bytes and zero are false. */
  predicate Truthy(f: Frame)
  {
    match f
    case Bytes(data) => |data| > 0
    case Int(n) => n != 0
    case Other(t) => t
  }

  /** Outcome of a call into code that may raise. */
  datatype Call<T> = Returned(value: T) | Raised

  /** What `json.loads` does with one inbound message. `DecodeError` is
      `json.JSONDecodeError`; `OtherError` is any other exception it raises
      (a `UnicodeDecodeError` for a binary message that is not UTF-8). */
  datatype Parsed = Decoded(data: Json) | DecodeError | OtherError

  /** The library behaviour the pipeline relies on. `toFloat` and `toInt` are
      `float(v)` and `int(v)`, `None` where they raise; `strOf` is `str(v)` for
      values that are neither strings, None, booleans nor integers. */
  datatype Runtime = Runtime(
    parse: string -> Parsed,
    toFloat: Json -> Option<Float>,
    toInt: Json -> Option<int>,
    strOf: Json -> string)

  /** The arguments of `ModeS.df_encode_airborne_position`. */
  datatype AirborneArgs = AirborneArgs(
    lat: Float, lon: Float, alt: Float,
    tc: int, ss: int, nicsb: int, timesync: int)

  /** The four `ModeS` encoding operations. The airborne one returns the pair
      `(even_frame, odd_frame)`; a result that does not unpack into two values
      raises, which is `Raised` here. */
  datatype Encoder = Encoder(
    airbornePosition: AirborneArgs -> Call<(Frame, Frame)>,
    groundVelocity: (Float, Float, Float) -> Call<Frame>,
    callsign: Json -> Call<Frame>,
    modeA: (Json, int) -> Call<Frame>)

  predicate AllDecimal(s: string)
  {
    forall i :: 0 <= i < |s| ==> '0' <= s[i] <= '9'
  }

  /** The number a string of decimal digits denotes, most significant first. */
  function DecimalValue(s: string): nat
    requires AllDecimal(s)
  {
    if |s| == 0 then 0
    else DecimalValue(s[..|s| - 1]) * 10 + (s[|s| - 1] as int - '0' as int)
  }

  /** `str(n)` for a non-negative integer: its decimal digits, most
      significant first, which read back as `n`. */
  function DecimalDigits(n: nat): (s: string)
    ensures |s| >= 1
    ensures AllDecimal(s)
    ensures DecimalValue(s) == n
    ensures |s| == 1 || s[0] != '0'
  {
    var d := ('0' as int + n % 10) as char;
    if n < 10 then [d]
    else
      var s := DecimalDigits(n / 10) + [d];
      assert s[..|s| - 1] == DecimalDigits(n / 10);
      s
  }

  /** `str(v)` of an optional JSON value, as an f-string renders it. */
  function Display(v: Option<Json>, rt: Runtime): (s: string)
    ensures v.Some? && v.value.JStr? ==> s == v.value.s
    ensures v.None? || v == Some(JNull) ==> s == "None"
    ensures v.Some? && v.value.JBool? ==> s == if v.value.b then "True" else "False"
    ensures v.Some? && v.value.JInt? && v.value.i >= 0 ==> s == DecimalDigits(v.value.i)
    ensures v.Some? && v.value.JInt? && v.value.i < 0 ==> s == "-" + DecimalDigits(-v.value.i)
    ensures v.Some? && (v.value.JFloat? || v.value.JArray? || v.value.JObject?) ==> s == rt.strOf(v.value)
  {
    match v
    case None => "None"
    case Some(j) =>
      match j
      case JNull => "None"
      case JStr(s) => s
      case JBool(b) => if b then "True" else "False"
      case JInt(i) => if i < 0 then "-" + DecimalDigits(-i) else DecimalDigits(i)
      case _ => rt.strOf(j)
  }

  /** `f"{-12}"` renders as `-12`. */
  lemma DisplayNegativeIntExample(rt: Runtime)
    ensures Display(Some(JInt(-12)), rt) == "-12"
  {
    assert DecimalDigits(1) == "1";
    assert DecimalDigits(12) == "12";
  }
}

=== FILE: wrappers.dfy ===
/** `Option`: a Python value that may be `None`, or the outcome of a coercion
    or lookup that may fail. */
module Wrappers {

  datatype Option<+T> = None | Some(value: T) {

    predicate IsFailure() {
      None?
    }

    function PropagateFailure<U>(): Option<U>
      requires None?
    {
      None
    }

    function Extract(): T
      requires Some?
    {
      value
    }
  }
}
